=== FILE: README.md ===
# Rundeck history purge: a Dafny model of `purge_history`

The tool deletes old job executions from a Rundeck server. For each project
(or job filter) it keeps the `keep_history_size` most recent executions and
deletes at most `max_delete_size` of the rest. It sends the deletions in
batches of `chunk_size` ids. This project models the planning and batching
logic of `purge_history` and the counting rule of `Client.delete_executions`,
and proves properties about them.

Modules, one concept each:

- `PyOps` (`pyops.dfy`): the Python built-ins the logic depends on. These are
  `min`, `divmod` with floor semantics and the `ids[-k:]` slice.
- `RundeckClient` (`client.dfy`): the server as the purge sees it.
  - The history is a fixed `seq` of execution ids, most recent first.
  - `get_execution_ids(offset, max)` is a slice of that sequence.
  - The reply to a bulk delete is an uninterpreted function from a batch of
    ids to a decoded `successful`/`allsuccessful` reply.
- `PurgePlan` (`plan.dfy`): covers the clamped keep count, the deletion
  count, the `divmod` into chunks and the history window each batch reads.
  It also proves the tiling results: the windows tile exactly the oldest
  `deletions` positions, they never overlap, and they never reach the `keep`
  most recent positions.
- `Purge` (`purge.dfy`): the `purge_history` loop, which accumulates
  `deleted` under loop invariants. It also holds the lemmas about a whole run:
  - the ids handed to deletion are exactly the oldest `deletions` executions;
  - the reported count is bounded by the plan;
  - with full success, the reported count equals the plan;
  - server replies never change which batches are read;
  - the offsets stay right if the server drops deleted executions between
    calls.
- `Wrappers` (`wrappers.dfy`): the `Result` type. It carries the
  `ZeroDivisionError` that `divmod` raises when `chunk_size` is zero.

The positions of the windows come from the code. Chunk `i` reads offset
`total - chunk_size * (i + 1)`, so the oldest chunk is read first. The
remainder reads from the running `offset` minus `remains`, which is proved to
be `total - deletions`. For `total=55, keep=20, chunk=20` the offsets are 35
and then 20. For `total=100` they are 80, 60, 40 and 20: the oldest chunk
is always read first.

## Model

| member | source | states |
|---|---|---|
| PyOps.Min | rd_purge_history.py:54-55 | Python's `min` of two integers: the result is at most each argument and equals one of them. |
| PyOps.DivMod | rd_purge_history.py:59 | `divmod` returns a quotient and remainder that recombine to the dividend. The remainder lies in `[0, b)` for a positive divisor and in `(b, 0]` for a negative one. |
| PyOps.DivModUnique | rd_purge_history.py:59 | Any pair `(q, r)` with `q*b + r == a` and a remainder in the divisor's range is exactly `DivMod(a, b)`, so the model computes Python's floor `divmod`. |
| PyOps.TakeLast | rd_purge_history.py:70 | `ids[-chunk_size:]` keeps the last `min(len, chunk_size)` ids, in order. It is the identity on a list no longer than the chunk size. |
| RundeckClient.GetExecutionIds | rd_purge_history.py:34-36 | A history query returns `min(max, total - offset)` ids: the executions at positions `offset, offset+1, …`. |
| RundeckClient.DeleteExecutions | rd_purge_history.py:123-136 | A dry run sends no request and returns 0. Otherwise it sends the request and returns the server's `successful` count, whether or not `allsuccessful` holds. |
| RundeckClient.PartialFailureCounted | rd_purge_history.py:129-136 | A reply reporting a partial failure yields the same outcome as a fully successful reply with the same count. |
| PurgePlan.Split | rd_purge_history.py:59 | The chunk count and the remainder recombine to the deletion count. The remainder is smaller than a positive chunk size. |
| PurgePlan.MakePlanAsWritten | rd_purge_history.py:53-59 | The script's plan. The keep count is `min(total, keep_history_size)`: at most both, and equal to one of them. The deletion count is `min(max_delete_size, total - keep)` in the same sense. The chunks and the remainder recombine to it, and the remainder lies between 0 and the chunk size, on the side of the chunk size's sign. |
| PurgePlan.MakePlan | rd_purge_history.py:53-59 | The corrected plan. The deletion count lies between 0 and `total - keep`, and within the cap when the cap is not negative. It is 0 when `total <= keep_history_size`. The keep count is `total` or the requested keep, whichever is smaller. It is never negative when `keep_history_size >= 0`. The deletion count is at most `total` exactly when the keep count is not negative or the cap is at most `total`. The chunk count is never negative for a positive chunk size. |
| PurgePlan.CorrectedPlanAgrees | rd_purge_history.py:54-59 | For every cap of zero or more, the corrected plan is the script's plan. |
| PurgePlan.DeletionsFormula | rd_purge_history.py:54-55 | For a cap of zero or more, the deletion count equals `min(maxDelete, max(0, total - min(total, keep)))`. |
| PurgePlan.DeletionsIsLargestAllowed | rd_purge_history.py:54-55 | For a cap of zero or more, every count that both the cap and the keep count allow is at most the deletion count. |
| PurgePlan.DefaultCapIsUnbounded | rd_purge_history.py:55 | With the default cap `sys.maxsize`, every execution beyond the keep count is deleted. |
| PurgePlan.Windows | rd_purge_history.py:61-78 | The planned queries in call order: one per iteration of `range(chunk_num)`, then the remainder query when `remains > 0`. |
| PurgePlan.TilesDownBounds | rd_purge_history.py:63-78 | Windows that step down contiguously from `hi` to `lo` stay inside `[lo, hi)` and are non-empty. Each lies entirely below every earlier window. |
| PurgePlan.TilesDownCovers | rd_purge_history.py:63-78 | Such windows request exactly the positions of `[lo, hi)`. |
| PurgePlan.ChunksTile | rd_purge_history.py:63-78 | The chunk windows from chunk `i` onward, followed by the remainder, step down contiguously from `total - chunk_size*i` to `total - deletions`. |
| PurgePlan.RemainderStartsAtBoundary | rd_purge_history.py:61-77 | The running `offset` minus `remains` is `total - deletions`, whether or not a full chunk came before. |
| PurgePlan.WindowsTileOldest | rd_purge_history.py:53-78 | Together the windows cover exactly `[total - deletions, total)`. No position is requested twice. Every window starts at or above the keep count and holds at most `chunk_size` positions. No position below `keep` is requested. |
| PurgePlan.CallCount | rd_purge_history.py:59-78 | The number of delete calls is `chunk_num` plus one for a non-empty remainder. It is zero exactly when the deletion count is zero, and in particular whenever `total <= keep_history_size`. |
| PurgePlan.NegativeChunkSizePlansNothing | rd_purge_history.py:59-78 | In the corrected plan, a negative `chunk_size` plans no query, even when executions are due for deletion. |
| PurgePlan.NegativeCapAsWritten | rd_purge_history.py:55-78 | In the script, a negative cap that is not a multiple of the chunk size plans exactly one query: the `remains` oldest positions. |
| PurgePlan.NegativeMultipleCapAsWritten | rd_purge_history.py:55-78 | In the script, a negative cap that is a multiple of the chunk size leaves no remainder, so it plans no query. |
| PurgePlan.NegativeChunkAndCapAsWritten | rd_purge_history.py:55-78 | In the script, `total=25, keep=20, chunk=-20, cap=-45` gives `divmod(-45, -20) == (2, -5)`. The loop then queries offsets 45 and 65, above `total`, each with `max` -20. |
| PurgePlan.NegativeCapDeletesKeptExecutions | rd_purge_history.py:54-78 | In the script, keeping 20 of 25 executions with cap -1 requests window `[6, 25)`. That window includes kept position 6. |
| PurgePlan.NegativeCapCorrected | rd_purge_history.py:55 | In the corrected plan, a negative cap plans no query at all. |
| PurgePlan.ScenarioEvenChunks | rd_purge_history.py:59-78 | With the default keep of 20, chunk size of 20 and `sys.maxsize` cap, and `total=100`: 80 deletions in four chunks read from offsets 80, 60, 40, 20, with no remainder. |
| PurgePlan.ScenarioWithRemainder | rd_purge_history.py:59-78 | With the default arguments and `total=55`: 35 deletions, one chunk at offset 35, then a remainder of 15 at offset 20. |
| Purge.SumAppend | rd_purge_history.py:72 | Adding one count to the running total keeps it the sum of the counts seen so far. |
| Purge.RecordExtends | rd_purge_history.py:68-79 | Reading the next window and recording its delete call extends a partial run by one call that agrees with the plan. |
| Purge.TilesDownFetch | rd_purge_history.py:68-78 | The batches read for windows that step down through `[lo, hi)`, joined in history order, are exactly `history[lo..hi]`. |
| Purge.BatchesAreOldest | rd_purge_history.py:53-78 | The planned batches, joined in history order, are exactly the `deletions` oldest executions. |
| Purge.BatchSizes | rd_purge_history.py:68-78 | Every planned batch holds between 1 and `chunk_size` ids. |
| Purge.PlannedRun | rd_purge_history.py:61-81 | The reference run of the purge: one batch and one count per planned window. A dry run reports 0 and posts nothing. |
| Purge.RunOfExecutes | rd_purge_history.py:63-79 | The run built call by call over the windows has the following shape: one batch per window, read from that window, and one delete call per batch. The running count is the sum of the confirmed counts, and it is 0 in a dry run. Destructive requests are sent only outside a dry run. |
| Purge.PlannedRunExecutes | rd_purge_history.py:44-81 | The purge's run follows its plan in the sense of `RunOfExecutes`. A dry run reports 0 and sends no destructive request. |
| Purge.RunReadsOldest | rd_purge_history.py:63-79 | The purge hands exactly the `deletions` oldest executions to deletion, in non-empty batches of at most `chunk_size` ids. |
| Purge.DeleteChunks | rd_purge_history.py:61-74 | The chunk loop runs `max(chunk_num, 0)` times, the length of `range(chunk_num)`. It ends with `offset` at `total - chunk_size * max(chunk_num, 0)`. Its run is the first `max(chunk_num, 0)` delete calls of the plan. |
| Purge.DeleteRemainder | rd_purge_history.py:76-79 | The remainder step queries `remains` ids just below the running `offset` and makes the last delete call. After it, the run is the whole plan's run. |
| Purge.PurgeHistory | rd_purge_history.py:44-81 | A zero chunk size fails, and only a zero chunk size. Otherwise the method, with its running `offset`, returns the reference run `PlannedRun`. For a positive chunk size, the batches are exactly the oldest `deletions` executions, each holding between 1 and `chunk_size` ids. A negative chunk size sends no batch (`PurgePlan.NegativeChunkSizePlansNothing`). A dry run reports 0 and posts nothing. |
| Purge.PurgeReportsAtMostPlanned | rd_purge_history.py:62-81 | If the server's confirmed count for a batch always lies between 0 and the batch size, the reported total is between 0 and the deletion count, and therefore within the cap. |
| Purge.PurgeFullSuccess | rd_purge_history.py:62-81 | If every delete call confirms its whole batch, a real purge reports exactly the deletion count. |
| Purge.ServerRepliesDoNotChangeBatches | rd_purge_history.py:72-81 | Two runs against servers with different replies, including partial failures, read the same batches and send the same requests. A partial failure never stops later chunks. |
| Purge.RemovedBatchesLeavePrefix | rd_purge_history.py:53-78 | After the first `k` batches are removed, what remains of the history is exactly the prefix below the last window read. |
| Purge.LiveHistoryKeepsWindows | rd_purge_history.py:53-78 | Reading window `k` from the history left after the earlier batches are removed returns the same ids as reading it from the snapshot. The offsets computed from the one `total` snapshot therefore stay valid. |

## Left out

- HTTP transport, authentication headers and status checks (`Client.get`, `Client.post`, `raise_for_status`). A transport error aborts the run, and that path is not modelled.
- XML decoding (`etree.fromstring`, `strtobool`) in `get_projects`, `search_history`, `get_execution_ids` and `delete_executions`. The model receives the decoded values: the history sequence and a `DeleteReply`.
- The error-message set that `delete_executions` logs on a partial failure, all other logging, and `time.sleep(0.1)` between chunks. None of them affects the result.
- `parse_args` and the `__main__` loop. Projects are purged one after another by independent calls; the model covers one call.
- Server behaviour. The history is one fixed snapshot, and the reply to a delete is uninterpreted. `LiveHistoryKeepsWindows` covers the one case with a known answer: the server drops exactly the deleted executions.
- The `total` query itself (`get_history_total`): it is `|history|`.
- Purge.PurgeHistory: excludes a positive `chunk_size` together with a negative keep count and a cap above `total`, as with the default cap (it requires `chunk_size <= 0` or `PurgePlan.WithinHistory`). On those inputs the deletion count `min(max_delete_size, total - keep_history_size)` exceeds `total`. The script then requests windows at negative offsets, and the server's answer to those is not part of this model. A zero `chunk_size` is accepted for any keep count and cap, and fails. So is a negative one, for which the corrected plan makes no query.
- Purge.PurgeHistory: uses the corrected plan, `PurgePlan.MakePlan`. For a negative `max_delete_size` it therefore plans nothing. The script does something else. With `chunk_size > 0` and a cap that is not a multiple of it, the script plans one batch (see Findings). With a cap that is a multiple, it plans nothing (`PurgePlan.NegativeMultipleCapAsWritten`). With `chunk_size < 0`, the loop makes `cap // chunk_size` queries above `total` (`PurgePlan.NegativeChunkAndCapAsWritten`). For every cap of zero or more, the two plans are equal (`PurgePlan.CorrectedPlanAgrees`).
- Python's `sys.maxsize` is written out as the 64-bit value `0x7FFF_FFFF_FFFF_FFFF`. Integers are otherwise unbounded, as they are in Python.

## Findings

| source | as written | input that shows it | evidently intended | confidence | as-written member | corrected member |
|---|---|---|---|---|---|---|
| rd_purge_history.py:55-59 | `deletions = min(max_delete_size, total - keep_history_size)` has no lower bound. A negative cap then goes into `divmod`. With a positive `chunk_size` and a cap that is not a multiple of it, `divmod` yields a negative `chunk_num` and a positive `remains`, so the remainder batch is still deleted. | `total=25`, `-k 20 -c 20 -m -1`: one batch reads offset 6 with max 19 and deletes positions 6 to 24. Fourteen of those executions are within the 20 that were to be kept. | A negative cap deletes nothing. | medium; not executed | PurgePlan.NegativeCapDeletesKeptExecutions | PurgePlan.NegativeCapCorrected |

=== FILE: client.dfy ===
/** The Rundeck server as the purge logic sees it. The HTTP transport and the XML
    decoding are not modelled: the execution history is a fixed sequence, paging
    through it is slicing, and the reply to a bulk delete is whatever the server
    function returns. */
module RundeckClient {
  import opened PyOps

  /** An execution id, as read from the `id` attribute of an `execution` element. */
  type ExecutionId = string

  /** The history of one (project, job filter) pair, most recent execution first. */
  type History = seq<ExecutionId>

  /** The `total` the history endpoint reports. */
  function HistoryTotal(h: History): nat
  {
    |h|
  }

  /** The ids of the page `offset`, `max` of the history endpoint: at most `hmax`
      consecutive executions starting at position `offset`. */
  function GetExecutionIds(h: History, offset: int, hmax: int): (ids: seq<ExecutionId>)
    requires 0 <= offset <= |h| && hmax >= 0
    ensures |ids| == Min(hmax, |h| - offset)
    ensures forall j :: 0 <= j < |ids| ==> ids[j] == h[offset + j]
  {
    h[offset .. offset + Min(hmax, |h| - offset)]
  }

  /** The decoded reply to `POST executions/delete`: the `count` of the
      `successful` element and the `allsuccessful` flag. The messages of the
      executions that failed are only logged, so they are not part of it. */
  datatype DeleteReply = DeleteReply(successful: int, allSuccessful: bool)

  /** The server's answer to a bulk delete of a batch of ids; left uninterpreted. */
  type Server = seq<ExecutionId> -> DeleteReply

  /** What `delete_executions` did: the count it returns and whether it sent
      the destructive request at all. */
  datatype DeleteOutcome = DeleteOutcome(count: int, posted: bool)

  /** `Client.delete_executions`: a dry run sends nothing and reports zero; a
      real run reports the server's `successful` count, whether or not every
      execution was deleted (a partial failure is only logged). */
  function DeleteExecutions(server: Server, ids: seq<ExecutionId>, dryRun: bool): (r: DeleteOutcome)
    ensures r.posted <==> !dryRun
    ensures dryRun ==> r.count == 0
    ensures !dryRun ==> r.count == server(ids).successful
  {
    if dryRun then DeleteOutcome(0, false)
    else
      var reply := server(ids);
      // Both branches return the count: a partial failure only adds a log line.
      if reply.allSuccessful then DeleteOutcome(reply.successful, true)
      else DeleteOutcome(reply.successful, true)
  }

  /** A reply that reports a partial failure still contributes its confirmed
      count, exactly as a fully successful one with the same count would. */
  lemma PartialFailureCounted(server: Server, other: Server, ids: seq<ExecutionId>)
    requires !server(ids).allSuccessful && other(ids).allSuccessful
    requires server(ids).successful == other(ids).successful
    ensures DeleteExecutions(server, ids, false) == DeleteExecutions(other, ids, false)
    ensures DeleteExecutions(server, ids, false).count == server(ids).successful
  {
  }
}

=== FILE: plan.dfy ===
/** The arithmetic of `purge_history`: how many executions to keep and delete,
    how the deletions are split into chunks, and which history window each
    delete batch is read from. Everything is computed from one `total`. */
module PurgePlan {
  import opened PyOps

  /** The command-line defaults: `--keep_history_size 20`, `--chunk_size 20`
      and `--max_delete_size sys.maxsize` (a 64-bit build). */
  const DefaultKeepHistorySize: int := 20
  const DefaultChunkSize: int := 20
  const DefaultMaxDeleteSize: int := 0x7FFF_FFFF_FFFF_FFFF

  /** The deletions stay inside the history: either the keep count is not
      negative, or the cap is no larger than `total`. Otherwise `total - keep`
      exceeds `total` and the oldest window starts below position 0. */
  predicate WithinHistory(total: int, keepHistorySize: int, maxDeleteSize: int)
  {
    keepHistorySize >= 0 || maxDeleteSize <= total
  }

  /** The values `purge_history` derives before touching any execution:
      the snapshot `total`, the clamped keep count, the number of deletions and
      the `divmod` of the deletions by the chunk size. */
  datatype Plan = Plan(total: int, keep: int, deletions: int, chunkSize: int, chunkNum: int, remains: int)

  /** `chunk_num, remains = divmod(deletions, chunk_size)`. */
  function Split(total: int, keep: int, deletions: int, chunkSize: int): (p: Plan)
    requires chunkSize != 0
    ensures p.total == total && p.keep == keep && p.deletions == deletions && p.chunkSize == chunkSize
    ensures p.chunkNum * chunkSize + p.remains == deletions
    ensures chunkSize > 0 ==> 0 <= p.remains < chunkSize
    ensures chunkSize < 0 ==> chunkSize < p.remains <= 0
  {
    var qr := DivMod(deletions, chunkSize);
    Plan(total, keep, deletions, chunkSize, qr.0, qr.1)
  }

  /** The plan exactly as the script computes it. A negative `max_delete_size`
      passes straight into `divmod` (see `NegativeCapAsWritten`). */
  function MakePlanAsWritten(total: nat, keepHistorySize: int, chunkSize: int, maxDeleteSize: int): (p: Plan)
    requires chunkSize != 0
    ensures p.total == total && p.chunkSize == chunkSize
    ensures p.keep <= total && p.keep <= keepHistorySize
    ensures p.keep == total || p.keep == keepHistorySize
    ensures p.deletions <= maxDeleteSize && p.deletions <= total - p.keep
    ensures p.deletions == maxDeleteSize || p.deletions == total - p.keep
    ensures p.chunkNum * chunkSize + p.remains == p.deletions
    ensures chunkSize > 0 ==> 0 <= p.remains < chunkSize
    ensures chunkSize < 0 ==> chunkSize < p.remains <= 0
  {
    var keep := Min(total, keepHistorySize);
    Split(total, keep, Min(maxDeleteSize, total - keep), chunkSize)
  }

  /** The plan the rest of the model uses: the script's plan, except that a
      negative cap deletes nothing. For a cap of zero or more the two agree
      (`CorrectedPlanAgrees`). */
  function MakePlan(total: nat, keepHistorySize: int, chunkSize: int, maxDeleteSize: int): (p: Plan)
    requires chunkSize != 0
    ensures p.total == total && p.chunkSize == chunkSize
    ensures p.keep <= total && p.keep <= keepHistorySize
    ensures p.keep == total || p.keep == keepHistorySize
    ensures 0 <= p.deletions <= total - p.keep
    ensures maxDeleteSize >= 0 ==> p.deletions <= maxDeleteSize
    ensures keepHistorySize >= 0 ==> 0 <= p.keep
    ensures p.deletions <= total <==> WithinHistory(total, keepHistorySize, maxDeleteSize)
    ensures total <= keepHistorySize ==> p.deletions == 0
    ensures p.chunkNum * chunkSize + p.remains == p.deletions
    ensures chunkSize > 0 ==> 0 <= p.remains < chunkSize && 0 <= p.chunkNum
  {
    var keep := Min(total, keepHistorySize);
    var capped := Min(maxDeleteSize, total - keep);
    var p := Split(total, keep, if capped < 0 then 0 else capped, chunkSize);
    assert chunkSize > 0 ==> 0 <= p.chunkNum by {
      if chunkSize > 0 && p.chunkNum < 0 {
        MulMonotone(-p.chunkNum, chunkSize);
      }
    }
    p
  }

  /** For a cap of zero or more the corrected plan is the script's plan. */
  lemma CorrectedPlanAgrees(total: nat, keepHistorySize: int, chunkSize: int, maxDeleteSize: int)
    requires chunkSize != 0 && maxDeleteSize >= 0
    ensures MakePlan(total, keepHistorySize, chunkSize, maxDeleteSize)
         == MakePlanAsWritten(total, keepHistorySize, chunkSize, maxDeleteSize)
  {
  }

  /** For a cap of zero or more the deletion count is
      `min(maxDelete, max(0, total - min(total, keep)))`. */
  lemma DeletionsFormula(total: nat, keepHistorySize: int, chunkSize: int, maxDeleteSize: int)
    requires chunkSize != 0 && maxDeleteSize >= 0
    ensures MakePlan(total, keepHistorySize, chunkSize, maxDeleteSize).deletions
         == Min(maxDeleteSize, if total - Min(total, keepHistorySize) > 0 then total - Min(total, keepHistorySize) else 0)
  {
  }

  /** The deletion count is the largest one the cap and the keep count allow:
      every count `n` within both is at most it. */
  lemma DeletionsIsLargestAllowed(total: nat, keepHistorySize: int, chunkSize: int, maxDeleteSize: int, n: int)
    requires chunkSize != 0 && maxDeleteSize >= 0
    requires 0 <= n <= maxDeleteSize && n <= total - Min(total, keepHistorySize)
    ensures n <= MakePlan(total, keepHistorySize, chunkSize, maxDeleteSize).deletions
  {
  }

  /** With the default cap every execution beyond the keep count is deleted. */
  lemma DefaultCapIsUnbounded(total: nat, keepHistorySize: int, chunkSize: int)
    requires chunkSize != 0 && keepHistorySize >= 0 && total <= DefaultMaxDeleteSize
    ensures MakePlan(total, keepHistorySize, chunkSize, DefaultMaxDeleteSize).deletions
         == total - Min(total, keepHistorySize)
  {
  }

  /** A half-open range of history positions `[offset, offset + limit)`: the
      `offset` and `max` of one history query. */
  datatype Window = Window(offset: int, limit: int)

  predicate Contains(w: Window, pos: int)
  {
    w.offset <= pos < w.offset + w.limit
  }

  /** The number of iterations of `for i in range(chunk_num)`. */
  function NumChunks(p: Plan): nat
  {
    if p.chunkNum > 0 then p.chunkNum else 0
  }

  /** The query of chunk `i`: `total - chunk_size * (i + 1)` with `max` the chunk size. */
  function ChunkWindow(p: Plan, i: int): Window
  {
    Window(p.total - p.chunkSize * (i + 1), p.chunkSize)
  }

  /** The value of `offset` once the chunk loop is over: the last chunk's
      offset, or `total` when there was no chunk. */
  function OffsetAfterChunks(p: Plan): int
  {
    if NumChunks(p) > 0 then ChunkWindow(p, NumChunks(p) - 1).offset else p.total
  }

  /** The query of the remainder: `offset -= remains` with `max` the remainder. */
  function RemainderWindow(p: Plan): Window
  {
    Window(OffsetAfterChunks(p) - p.remains, p.remains)
  }

  /** The history windows read, in call order: one per chunk, then the
      remainder when it is not empty. */
  function Windows(p: Plan): (ws: seq<Window>)
    ensures |ws| == NumChunks(p) + (if p.remains > 0 then 1 else 0)
    ensures forall i :: 0 <= i < NumChunks(p) ==> ws[i] == ChunkWindow(p, i)
    ensures p.remains > 0 ==> ws[NumChunks(p)] == RemainderWindow(p)
  {
    seq(NumChunks(p), i => ChunkWindow(p, i)) + (if p.remains > 0 then [RemainderWindow(p)] else [])
  }

  /** Some window of `ws` asks for history position `pos`. */
  predicate Requested(ws: seq<Window>, pos: int)
  {
    exists k :: 0 <= k < |ws| && Contains(ws[k], pos)
  }

  /** Read in order, the non-empty windows `ws` step down from `hi` to `lo`,
      each ending where the previous one began. */
  predicate TilesDown(ws: seq<Window>, lo: int, hi: int)
    decreases |ws|
  {
    if ws == [] then lo == hi
    else ws[0].limit > 0 && ws[0].offset + ws[0].limit == hi && TilesDown(ws[1..], lo, ws[0].offset)
  }

  /** Windows that tile `[lo, hi)` downward lie inside it, and each one lies
      entirely below every earlier one. */
  lemma {:induction false} TilesDownBounds(ws: seq<Window>, lo: int, hi: int)
    requires TilesDown(ws, lo, hi)
    ensures lo <= hi
    ensures forall k :: 0 <= k < |ws| ==> lo <= ws[k].offset && ws[k].offset + ws[k].limit <= hi
    ensures forall k :: 0 <= k < |ws| ==> ws[k].limit > 0
    ensures forall j, k :: 0 <= j < k < |ws| ==> ws[k].offset + ws[k].limit <= ws[j].offset
    decreases |ws|
  {
    if ws != [] {
      var rest := ws[1..];
      TilesDownBounds(rest, lo, ws[0].offset);
      forall k | 0 < k < |ws|
        ensures lo <= ws[k].offset && ws[k].offset + ws[k].limit <= ws[0].offset && ws[k].limit > 0
      {
        assert ws[k] == rest[k - 1];
      }
      forall j, k | 0 < j < k < |ws|
        ensures ws[k].offset + ws[k].limit <= ws[j].offset
      {
        assert ws[k] == rest[k - 1] && ws[j] == rest[j - 1];
      }
    }
  }

  /** Windows that tile `[lo, hi)` downward ask for exactly the positions of
      `[lo, hi)`. */
  lemma {:induction false} TilesDownCovers(ws: seq<Window>, lo: int, hi: int)
    requires TilesDown(ws, lo, hi)
    ensures forall pos :: Requested(ws, pos) <==> lo <= pos < hi
    decreases |ws|
  {
    TilesDownBounds(ws, lo, hi);
    if ws != [] {
      var rest := ws[1..];
      TilesDownCovers(rest, lo, ws[0].offset);
      forall pos
        ensures Requested(ws, pos) <==> lo <= pos < hi
      {
        if lo <= pos < hi {
          if pos >= ws[0].offset {
            assert Contains(ws[0], pos);
          } else {
            assert Requested(rest, pos);
            var k :| 0 <= k < |rest| && Contains(rest[k], pos);
            assert ws[k + 1] == rest[k];
          }
        }
      }
    }
  }

  /** The facts of a split with a positive chunk size that the tiling needs. */
  predicate PositiveSplit(p: Plan)
  {
    p.chunkSize >= 1 && p.chunkNum >= 0 && 0 <= p.remains < p.chunkSize
    && p.chunkNum * p.chunkSize + p.remains == p.deletions
  }

  /** After the last chunk, `offset` has stepped down by every full chunk. */
  lemma OffsetAfterAllChunks(p: Plan)
    requires PositiveSplit(p)
    ensures OffsetAfterChunks(p) == p.total - p.chunkSize * p.chunkNum
    ensures OffsetAfterChunks(p) - p.remains == p.total - p.deletions
  {
    if NumChunks(p) > 0 {
      assert p.chunkSize * (NumChunks(p) - 1 + 1) == p.chunkSize * p.chunkNum;
    }
  }

  /** The remainder alone tiles what the full chunks leave. */
  lemma RemainderTiles(p: Plan)
    requires PositiveSplit(p)
    ensures TilesDown(Windows(p)[NumChunks(p)..], p.total - p.deletions, p.total - p.chunkSize * NumChunks(p))
  {
    var ws := Windows(p);
    OffsetAfterAllChunks(p);
    if p.remains > 0 {
      assert ws[NumChunks(p)..] == [RemainderWindow(p)];
      assert ws[NumChunks(p)..][1..] == [];
    } else {
      assert ws[NumChunks(p)..] == [];
    }
  }

  /** The chunk windows from chunk `i` on, followed by the remainder, tile
      `[total - deletions, total - chunk_size * i)`. */
  lemma {:induction false} ChunksTile(p: Plan, i: nat)
    requires PositiveSplit(p) && i <= NumChunks(p)
    ensures TilesDown(Windows(p)[i..], p.total - p.deletions, p.total - p.chunkSize * i)
    decreases NumChunks(p) - i
  {
    if i == NumChunks(p) {
      RemainderTiles(p);
    } else {
      var ws := Windows(p);
      ChunksTile(p, i + 1);
      assert ws[i..][0] == ChunkWindow(p, i);
      assert ws[i..][1..] == ws[i + 1..];
      assert p.chunkSize * (i + 1) == p.chunkSize * i + p.chunkSize;
    }
  }

  /** The remainder batch starts at `total - deletions`, whatever the number of
      full chunks before it. */
  lemma RemainderStartsAtBoundary(total: nat, keepHistorySize: int, chunkSize: int, maxDeleteSize: int)
    requires chunkSize >= 1
    ensures var p := MakePlan(total, keepHistorySize, chunkSize, maxDeleteSize);
      RemainderWindow(p) == Window(total - p.deletions, p.remains)
  {
    OffsetAfterAllChunks(MakePlan(total, keepHistorySize, chunkSize, maxDeleteSize));
  }

  /** With a positive chunk size the corrected plan is a split of a
      non-negative deletion count that lies above the keep count. */
  lemma PlanIsPositiveSplit(total: nat, keepHistorySize: int, chunkSize: int, maxDeleteSize: int)
    requires chunkSize >= 1 && WithinHistory(total, keepHistorySize, maxDeleteSize)
    ensures var p := MakePlan(total, keepHistorySize, chunkSize, maxDeleteSize);
      PositiveSplit(p) && p.total == total && p.keep <= total - p.deletions && 0 <= p.deletions <= total
  {
  }

  /** The windows of any split with a positive chunk size step down from
      `total` to `total - deletions`. */
  lemma SplitWindowsTile(p: Plan)
    requires PositiveSplit(p)
    ensures TilesDown(Windows(p), p.total - p.deletions, p.total)
  {
    ChunksTile(p, 0);
    assert Windows(p)[0..] == Windows(p);
  }

  /** No window of a split with a positive chunk size holds more than one chunk. */
  lemma SplitWindowLimits(p: Plan)
    requires PositiveSplit(p)
    ensures forall k :: 0 <= k < |Windows(p)| ==> Windows(p)[k].limit <= p.chunkSize
  {
    var ws := Windows(p);
    forall k | 0 <= k < |ws|
      ensures ws[k].limit <= p.chunkSize
    {
      if k >= NumChunks(p) {
        assert ws[k] == RemainderWindow(p);
      }
    }
  }

  /** The main safety property of the plan: the windows requested for deletion
      never overlap, together they are exactly the oldest `deletions`
      positions `[total - deletions, total)`, and none of the `keep` most
      recent positions is ever requested. */
  lemma WindowsTileOldest(total: nat, keepHistorySize: int, chunkSize: int, maxDeleteSize: int)
    requires chunkSize >= 1 && WithinHistory(total, keepHistorySize, maxDeleteSize)
    ensures var p := MakePlan(total, keepHistorySize, chunkSize, maxDeleteSize);
      TilesDown(Windows(p), total - p.deletions, total)
    ensures var p := MakePlan(total, keepHistorySize, chunkSize, maxDeleteSize);
      forall pos :: Requested(Windows(p), pos) <==> total - p.deletions <= pos < total
    ensures var p := MakePlan(total, keepHistorySize, chunkSize, maxDeleteSize);
      var ws := Windows(p);
      forall j, k, pos :: 0 <= j < k < |ws| && Contains(ws[j], pos) ==> !Contains(ws[k], pos)
    ensures var p := MakePlan(total, keepHistorySize, chunkSize, maxDeleteSize);
      var ws := Windows(p);
      forall k :: 0 <= k < |ws| ==>
        && p.keep <= ws[k].offset && total - p.deletions <= ws[k].offset
        && ws[k].offset + ws[k].limit <= total && 0 < ws[k].limit <= chunkSize
    ensures var p := MakePlan(total, keepHistorySize, chunkSize, maxDeleteSize);
      forall pos :: 0 <= pos < p.keep ==> !Requested(Windows(p), pos)
  {
    var p := MakePlan(total, keepHistorySize, chunkSize, maxDeleteSize);
    var ws := Windows(p);
    var lo := total - p.deletions;
    assert 0 <= lo;
    PlanIsPositiveSplit(total, keepHistorySize, chunkSize, maxDeleteSize);
    SplitWindowsTile(p);
    SplitWindowLimits(p);
    TilesDownBounds(ws, lo, total);
    TilesDownCovers(ws, lo, total);
  }

  /** The number of delete calls is `chunk_num` plus one for a non-empty
      remainder, and it is zero exactly when there is nothing to delete; in
      particular when the history is no longer than the keep count. */
  lemma CallCount(total: nat, keepHistorySize: int, chunkSize: int, maxDeleteSize: int)
    requires chunkSize >= 1
    ensures var p := MakePlan(total, keepHistorySize, chunkSize, maxDeleteSize);
      |Windows(p)| == p.chunkNum + (if p.remains > 0 then 1 else 0)
    ensures var p := MakePlan(total, keepHistorySize, chunkSize, maxDeleteSize);
      |Windows(p)| == 0 <==> p.deletions == 0
    ensures total <= keepHistorySize ==> Windows(MakePlan(total, keepHistorySize, chunkSize, maxDeleteSize)) == []
  {
    var p := MakePlan(total, keepHistorySize, chunkSize, maxDeleteSize);
    if p.deletions > 0 && p.chunkNum == 0 {
      assert p.remains == p.deletions;
    }
    if p.deletions == 0 && p.chunkNum > 0 {
      MulMonotone(p.chunkNum, chunkSize);
    }
  }

  /** A negative chunk size is accepted by `divmod` but plans no batch at all,
      even when executions are due for deletion. */
  lemma NegativeChunkSizePlansNothing(total: nat, keepHistorySize: int, chunkSize: int, maxDeleteSize: int)
    requires chunkSize < 0
    ensures Windows(MakePlan(total, keepHistorySize, chunkSize, maxDeleteSize)) == []
  {
    var p := MakePlan(total, keepHistorySize, chunkSize, maxDeleteSize);
    if p.chunkNum > 0 {
      MulMonotone(p.chunkNum, chunkSize);
    }
  }

  /** As written, a negative cap with a non-zero remainder modulo the chunk
      size plans one batch: the `remains` oldest executions, however many of
      them fall inside the keep count. */
  lemma NegativeCapAsWritten(total: nat, keepHistorySize: int, chunkSize: int, maxDeleteSize: int)
    requires chunkSize >= 1 && maxDeleteSize < 0 && maxDeleteSize % chunkSize != 0
    ensures var p := MakePlanAsWritten(total, keepHistorySize, chunkSize, maxDeleteSize);
      0 < p.remains < chunkSize && Windows(p) == [Window(total - p.remains, p.remains)]
  {
    var p := MakePlanAsWritten(total, keepHistorySize, chunkSize, maxDeleteSize);
    if p.chunkNum > 0 {
      MulMonotone(p.chunkNum, chunkSize);
    }
  }

  /** A negative cap that is a multiple of the chunk size leaves no
      remainder and a negative `chunk_num`, so even the script plans nothing. */
  lemma NegativeMultipleCapAsWritten(total: nat, keepHistorySize: int, chunkSize: int, maxDeleteSize: int)
    requires chunkSize >= 1 && maxDeleteSize < 0 && maxDeleteSize % chunkSize == 0
    ensures var p := MakePlanAsWritten(total, keepHistorySize, chunkSize, maxDeleteSize);
      p.remains == 0 && Windows(p) == []
  {
    var p := MakePlanAsWritten(total, keepHistorySize, chunkSize, maxDeleteSize);
    if p.chunkNum > 0 {
      MulMonotone(p.chunkNum, chunkSize);
    }
  }

  /** As written, a negative chunk size with a negative cap makes `divmod`
      return a positive `chunk_num`: the loop queries `cap // chunk_size`
      windows above `total`, each with a negative `max`. */
  lemma NegativeChunkAndCapAsWritten()
    ensures var p := MakePlanAsWritten(25, 20, -20, -45);
      p.chunkNum == 2 && p.remains == -5
      && Windows(p) == [Window(45, -20), Window(65, -20)]
  {
  }

  /** The input that shows it: keep 20 of 25 executions with `-m -1`; the
      script asks to delete positions 6 to 24, fourteen of which are kept. */
  lemma NegativeCapDeletesKeptExecutions()
    ensures var p := MakePlanAsWritten(25, 20, 20, -1);
      Windows(p) == [Window(6, 19)] && p.keep == 20 && Requested(Windows(p), 6)
  {
    var p := MakePlanAsWritten(25, 20, 20, -1);
    assert Contains(Windows(p)[0], 6);
  }

  /** Corrected, the same input plans nothing. */
  lemma NegativeCapCorrected(total: nat, keepHistorySize: int, chunkSize: int, maxDeleteSize: int)
    requires chunkSize >= 1 && maxDeleteSize < 0
    ensures Windows(MakePlan(total, keepHistorySize, chunkSize, maxDeleteSize)) == []
  {
    CallCount(total, keepHistorySize, chunkSize, maxDeleteSize);
  }

  /** With the default arguments (keep 20, chunk 20, no cap) and
      `total=100`: four chunks read from offsets 80, 60, 40
      and 20, oldest first, and no remainder. */
  lemma ScenarioEvenChunks()
    ensures var p := MakePlan(100, DefaultKeepHistorySize, DefaultChunkSize, DefaultMaxDeleteSize);
      p.deletions == 80 && p.chunkNum == 4 && p.remains == 0
      && Windows(p) == [Window(80, 20), Window(60, 20), Window(40, 20), Window(20, 20)]
  {
  }

  /** With the default arguments and `total=55`: one chunk from offset 35, then the
      remainder of 15 from offset 20. */
  lemma ScenarioWithRemainder()
    ensures var p := MakePlan(55, DefaultKeepHistorySize, DefaultChunkSize, DefaultMaxDeleteSize);
      p.deletions == 35 && p.chunkNum == 1 && p.remains == 15
      && Windows(p) == [Window(35, 20), Window(20, 15)]
  {
  }
}

=== FILE: purge.dfy ===
/** `purge_history`: read the history total once, plan the deletions, then
    fetch and delete one batch per window, adding up the confirmed counts. */
module Purge {
  import opened Wrappers
  import opened PyOps
  import opened RundeckClient
  import opened PurgePlan

  /** `divmod(deletions, 0)` raises `ZeroDivisionError` after the history
      total has been read and before anything is deleted. */
  datatype PurgeError = ZeroChunkSize

  /** What one purge did: the returned count, the id batches handed to
      `delete_executions` in call order, the count each call returned, and the
      batches actually sent to the server in a destructive request. */
  datatype PurgeRun = PurgeRun(
    deleted: int,
    batches: seq<seq<ExecutionId>>,
    counts: seq<int>,
    posted: seq<seq<ExecutionId>>)

  /** Every window is a query the history endpoint can answer. */
  predicate WindowsInside(ws: seq<Window>, n: int)
  {
    forall k :: 0 <= k < |ws| ==> 0 <= ws[k].offset <= n && ws[k].limit >= 0
  }

  /** The ids the history endpoint returns for one window. */
  function Batch(h: History, w: Window): seq<ExecutionId>
    requires 0 <= w.offset <= |h| && w.limit >= 0
  {
    GetExecutionIds(h, w.offset, w.limit)
  }

  /** The batches read for the windows `ws`, in call order. */
  function PlannedBatches(h: History, ws: seq<Window>): (bs: seq<seq<ExecutionId>>)
    requires WindowsInside(ws, |h|)
    ensures |bs| == |ws|
    ensures forall k :: 0 <= k < |bs| ==> bs[k] == Batch(h, ws[k])
  {
    seq(|ws|, k requires 0 <= k < |ws| => Batch(h, ws[k]))
  }

  /** The batches joined last batch first. Every batch lies at older
      positions than the ones read before it, so this is the order in which
      they sit in the history. */
  function FlattenRev(bs: seq<seq<ExecutionId>>): seq<ExecutionId>
  {
    if bs == [] then [] else FlattenRev(bs[1..]) + bs[0]
  }

  function Sum(xs: seq<int>): int
  {
    if xs == [] then 0 else xs[0] + Sum(xs[1..])
  }

  /** Adding to a running total, as `deleted +=` does, keeps it the sum of the
      counts seen so far. */
  lemma {:induction false} SumAppend(xs: seq<int>, x: int)
    ensures Sum(xs + [x]) == Sum(xs) + x
  {
    if xs != [] {
      assert (xs + [x])[1..] == xs[1..] + [x];
      SumAppend(xs[1..], x);
    }
  }

  /** The first `i` delete calls of a run reading the windows `ws`: one batch
      per window, one delete call per batch, the running count the sum of
      the confirmed counts, and destructive requests only outside a dry run. */
  predicate ExecutesUpTo(h: History, ws: seq<Window>, dryRun: bool, server: Server, run: PurgeRun, i: nat)
  {
    && WindowsInside(ws, |h|)
    && i <= |ws|
    && run.batches == PlannedBatches(h, ws)[..i]
    && |run.counts| == i
    && (forall k :: 0 <= k < i ==> run.counts[k] == DeleteExecutions(server, run.batches[k], dryRun).count)
    && run.deleted == Sum(run.counts)
    && (dryRun ==> run.deleted == 0)
    && run.posted == (if dryRun then [] else run.batches)
  }

  /** A whole run of the plan `p`. */
  predicate Executes(h: History, p: Plan, dryRun: bool, server: Server, run: PurgeRun)
  {
    ExecutesUpTo(h, Windows(p), dryRun, server, run, |Windows(p)|)
  }

  /** A whole run hands over exactly the planned batches. */
  lemma ExecutesAllBatches(h: History, p: Plan, dryRun: bool, server: Server, run: PurgeRun)
    requires Executes(h, p, dryRun, server, run)
    ensures run.batches == PlannedBatches(h, Windows(p))
  {
    var bs := PlannedBatches(h, Windows(p));
    assert bs[..|bs|] == bs;
  }

  /** `deleted += client.delete_executions(ids, dry_run)`, with the call
      itself recorded. */
  function Record(run: PurgeRun, ids: seq<ExecutionId>, outcome: DeleteOutcome): PurgeRun
  {
    PurgeRun(run.deleted + outcome.count, run.batches + [ids], run.counts + [outcome.count],
             if outcome.posted then run.posted + [ids] else run.posted)
  }

  /** Recording the delete call for the next window extends a run by one call. */
  lemma RecordExtends(h: History, ws: seq<Window>, dryRun: bool, server: Server, run: PurgeRun, i: nat,
                      ids: seq<ExecutionId>)
    requires ExecutesUpTo(h, ws, dryRun, server, run, i) && i < |ws|
    requires ids == Batch(h, ws[i])
    ensures ExecutesUpTo(h, ws, dryRun, server, Record(run, ids, DeleteExecutions(server, ids, dryRun)), i + 1)
  {
    var outcome := DeleteExecutions(server, ids, dryRun);
    var run' := Record(run, ids, outcome);
    SumAppend(run.counts, outcome.count);
    assert PlannedBatches(h, ws)[..i + 1] == PlannedBatches(h, ws)[..i] + [ids];
    forall k | 0 <= k < i + 1
      ensures run'.counts[k] == DeleteExecutions(server, run'.batches[k], dryRun).count
    {
      if k < i {
        assert run'.counts[k] == run.counts[k] && run'.batches[k] == run.batches[k];
      }
    }
  }

  /** The first `i` delete calls for the windows `ws`, built call by call as
      the loop builds them. */
  function RunOf(h: History, ws: seq<Window>, dryRun: bool, server: Server, i: nat): PurgeRun
    requires WindowsInside(ws, |h|) && i <= |ws|
    decreases i
  {
    if i == 0 then PurgeRun(0, [], [], [])
    else
      var ids := Batch(h, ws[i - 1]);
      Record(RunOf(h, ws, dryRun, server, i - 1), ids, DeleteExecutions(server, ids, dryRun))
  }

  /** Built call by call, the run follows the windows. */
  lemma {:induction false} RunOfExecutes(h: History, ws: seq<Window>, dryRun: bool, server: Server, i: nat)
    requires WindowsInside(ws, |h|) && i <= |ws|
    ensures ExecutesUpTo(h, ws, dryRun, server, RunOf(h, ws, dryRun, server, i), i)
    decreases i
  {
    if i > 0 {
      RunOfExecutes(h, ws, dryRun, server, i - 1);
      RecordExtends(h, ws, dryRun, server, RunOf(h, ws, dryRun, server, i - 1), i - 1, Batch(h, ws[i - 1]));
    }
  }

  /** Every planned window is a valid query of the history. */
  lemma PlanWindowsInside(h: History, keepHistorySize: int, chunkSize: int, maxDeleteSize: int)
    requires chunkSize != 0 && (chunkSize < 0 || WithinHistory(|h|, keepHistorySize, maxDeleteSize))
    ensures WindowsInside(Windows(MakePlan(|h|, keepHistorySize, chunkSize, maxDeleteSize)), |h|)
  {
    if chunkSize < 0 {
      NegativeChunkSizePlansNothing(|h|, keepHistorySize, chunkSize, maxDeleteSize);
    } else {
      WindowsTileOldest(|h|, keepHistorySize, chunkSize, maxDeleteSize);
    }
  }

  /** The whole run `purge_history` makes for a history, its arguments and
      the server's replies, when the chunk size is not zero. */
  function PlannedRun(h: History, keepHistorySize: int, chunkSize: int, maxDeleteSize: int,
                      dryRun: bool, server: Server): (run: PurgeRun)
    requires chunkSize != 0 && (chunkSize < 0 || WithinHistory(|h|, keepHistorySize, maxDeleteSize))
    ensures |run.batches| == |run.counts| == |Windows(MakePlan(|h|, keepHistorySize, chunkSize, maxDeleteSize))|
    ensures dryRun ==> run.deleted == 0 && run.posted == []
  {
    PlanWindowsInside(h, keepHistorySize, chunkSize, maxDeleteSize);
    var ws := Windows(MakePlan(|h|, keepHistorySize, chunkSize, maxDeleteSize));
    RunOfExecutes(h, ws, dryRun, server, |ws|);
    RunOf(h, ws, dryRun, server, |ws|)
  }

  /** The purge follows its plan; a dry run reports zero and sends nothing. */
  lemma PlannedRunExecutes(h: History, keepHistorySize: int, chunkSize: int, maxDeleteSize: int,
                           dryRun: bool, server: Server)
    requires chunkSize != 0 && (chunkSize < 0 || WithinHistory(|h|, keepHistorySize, maxDeleteSize))
    ensures Executes(h, MakePlan(|h|, keepHistorySize, chunkSize, maxDeleteSize), dryRun, server,
                     PlannedRun(h, keepHistorySize, chunkSize, maxDeleteSize, dryRun, server))
    ensures dryRun ==> PlannedRun(h, keepHistorySize, chunkSize, maxDeleteSize, dryRun, server).deleted == 0
    ensures dryRun ==> PlannedRun(h, keepHistorySize, chunkSize, maxDeleteSize, dryRun, server).posted == []
  {
    PlanWindowsInside(h, keepHistorySize, chunkSize, maxDeleteSize);
    var ws := Windows(MakePlan(|h|, keepHistorySize, chunkSize, maxDeleteSize));
    RunOfExecutes(h, ws, dryRun, server, |ws|);
  }

  /** Windows that tile `[lo, hi)` downward read, joined back in history
      order, exactly the executions at positions `[lo, hi)`. */
  lemma {:induction false} TilesDownFetch(h: History, ws: seq<Window>, lo: int, hi: int)
    requires TilesDown(ws, lo, hi) && 0 <= lo <= hi <= |h|
    ensures WindowsInside(ws, |h|)
    ensures FlattenRev(PlannedBatches(h, ws)) == h[lo..hi]
    decreases |ws|
  {
    TilesDownBounds(ws, lo, hi);
    if ws != [] {
      var rest := ws[1..];
      TilesDownFetch(h, rest, lo, ws[0].offset);
      var bs := PlannedBatches(h, ws);
      assert bs[1..] == PlannedBatches(h, rest);
      assert bs[0] == h[ws[0].offset..hi];
      assert h[lo..hi] == h[lo..ws[0].offset] + h[ws[0].offset..hi];
    }
  }

  /** The first `k` windows of a downward tiling tile the top of the range,
      down to where the `k`-th window begins. */
  lemma {:induction false} TilesDownPrefix(ws: seq<Window>, lo: int, hi: int, k: nat)
    requires TilesDown(ws, lo, hi) && k <= |ws|
    ensures TilesDown(ws[..k], if k == 0 then hi else ws[k - 1].offset, hi)
    decreases k
  {
    if k > 0 {
      TilesDownPrefix(ws[1..], lo, ws[0].offset, k - 1);
      assert ws[..k][1..] == ws[1..][..k - 1];
      if k > 1 {
        assert ws[1..][k - 2] == ws[k - 1];
      }
    }
  }

  /** Once the first `k` batches of a downward tiling of the history's tail
      are deleted, what is left is exactly the prefix below them. */
  lemma RemovedBatchesLeavePrefix(h: History, ws: seq<Window>, lo: int, k: nat)
    requires TilesDown(ws, lo, |h|) && 0 <= lo && k <= |ws|
    ensures WindowsInside(ws, |h|)
    ensures var rest := if k == 0 then |h| else ws[k - 1].offset;
      0 <= rest <= |h| && h[..rest] + FlattenRev(PlannedBatches(h, ws)[..k]) == h
  {
    TilesDownBounds(ws, lo, |h|);
    var rest := if k == 0 then |h| else ws[k - 1].offset;
    var prefix := ws[..k];
    TilesDownPrefix(ws, lo, |h|, k);
    TilesDownBounds(prefix, rest, |h|);
    TilesDownFetch(h, prefix, rest, |h|);
    PlannedBatchesPrefix(h, ws, k);
    JoinAt(h, rest);
  }

  lemma JoinAt(h: History, m: int)
    requires 0 <= m <= |h|
    ensures h[..m] + h[m..] == h
  {
  }

  /** Reading a prefix of the windows reads a prefix of the batches. */
  lemma PlannedBatchesPrefix(h: History, ws: seq<Window>, k: nat)
    requires WindowsInside(ws, |h|) && k <= |ws|
    ensures WindowsInside(ws[..k], |h|)
    ensures PlannedBatches(h, ws)[..k] == PlannedBatches(h, ws[..k])
  {
  }

  /** A server that drops deleted executions from its history between calls
      does not upset the offsets: since the oldest batch goes first, the window
      of batch `k` ends where the remaining prefix ends, and reading it from
      that prefix gives the same executions as reading it from the snapshot.
      The offsets computed from the one `total` snapshot stay right. */
  lemma LiveHistoryKeepsWindows(h: History, ws: seq<Window>, lo: int, k: nat)
    requires TilesDown(ws, lo, |h|) && 0 <= lo && k < |ws|
    ensures WindowsInside(ws, |h|)
    ensures var rest := if k == 0 then |h| else ws[k - 1].offset;
      ws[k].offset + ws[k].limit == rest && rest <= |h|
      && Batch(h[..rest], ws[k]) == Batch(h, ws[k])
  {
    TilesDownBounds(ws, lo, |h|);
    TilesDownSuffix(ws, lo, |h|, k);
    if k > 0 {
      TilesDownSuffix(ws, lo, |h|, k - 1);
      assert ws[k - 1..][1..] == ws[k..];
    }
  }

  /** A suffix of a downward tiling tiles the bottom of the range. */
  lemma {:induction false} TilesDownSuffix(ws: seq<Window>, lo: int, hi: int, k: nat)
    requires TilesDown(ws, lo, hi) && k < |ws|
    ensures TilesDown(ws[k..], lo, ws[k].offset + ws[k].limit)
    decreases k
  {
    if k > 0 {
      TilesDownSuffix(ws[1..], lo, ws[0].offset, k - 1);
      assert ws[1..][k - 1..] == ws[k..];
    }
  }

  /** The confirmed counts add up to the number of ids sent when every call
      confirms its whole batch. */
  lemma {:induction false} SumOfFullBatches(bs: seq<seq<ExecutionId>>, counts: seq<int>)
    requires |counts| == |bs| && forall k :: 0 <= k < |bs| ==> counts[k] == |bs[k]|
    ensures Sum(counts) == |FlattenRev(bs)|
  {
    if bs != [] {
      SumOfFullBatches(bs[1..], counts[1..]);
    }
  }

  /** The confirmed counts add up to at most the number of ids sent when no
      call confirms more than its batch. */
  lemma {:induction false} SumOfPartialBatches(bs: seq<seq<ExecutionId>>, counts: seq<int>)
    requires |counts| == |bs| && forall k :: 0 <= k < |bs| ==> 0 <= counts[k] <= |bs[k]|
    ensures 0 <= Sum(counts) <= |FlattenRev(bs)|
  {
    if bs != [] {
      SumOfPartialBatches(bs[1..], counts[1..]);
    }
  }

  /** The ids handed to deletion, joined in history order, are exactly the
      `deletions` oldest executions. */
  lemma BatchesAreOldest(h: History, keepHistorySize: int, chunkSize: int, maxDeleteSize: int)
    requires chunkSize >= 1 && WithinHistory(|h|, keepHistorySize, maxDeleteSize)
    ensures var p := MakePlan(|h|, keepHistorySize, chunkSize, maxDeleteSize);
      WindowsInside(Windows(p), |h|) && FlattenRev(PlannedBatches(h, Windows(p))) == h[|h| - p.deletions..]
  {
    PlanIsPositiveSplit(|h|, keepHistorySize, chunkSize, maxDeleteSize);
    SplitBatchesAreOldest(h, MakePlan(|h|, keepHistorySize, chunkSize, maxDeleteSize));
  }

  /** The same for any split of a deletion count no larger than the history. */
  lemma SplitBatchesAreOldest(h: History, p: Plan)
    requires PositiveSplit(p) && p.total == |h| && 0 <= p.deletions <= p.total
    ensures WindowsInside(Windows(p), |h|)
    ensures FlattenRev(PlannedBatches(h, Windows(p))) == h[|h| - p.deletions..]
  {
    SplitWindowsTile(p);
    TilesDownFetch(h, Windows(p), |h| - p.deletions, |h|);
  }

  /** Every planned batch holds between one and `chunk_size` ids. */
  lemma BatchSizes(h: History, keepHistorySize: int, chunkSize: int, maxDeleteSize: int)
    requires chunkSize >= 1 && WithinHistory(|h|, keepHistorySize, maxDeleteSize)
    ensures var p := MakePlan(|h|, keepHistorySize, chunkSize, maxDeleteSize);
      WindowsInside(Windows(p), |h|)
      && var bs := PlannedBatches(h, Windows(p));
         forall k :: 0 <= k < |bs| ==> 0 < |bs[k]| <= chunkSize
  {
    var p := MakePlan(|h|, keepHistorySize, chunkSize, maxDeleteSize);
    var ws := Windows(p);
    WindowsTileOldest(|h|, keepHistorySize, chunkSize, maxDeleteSize);
    var bs := PlannedBatches(h, ws);
    forall k | 0 <= k < |bs|
      ensures 0 < |bs[k]| <= chunkSize
    {
      assert bs[k] == Batch(h, ws[k]);
    }
  }

  /** A purge hands to deletion exactly the `deletions` oldest executions,
      in non-empty batches of at most `chunk_size` ids. */
  lemma RunReadsOldest(h: History, keepHistorySize: int, chunkSize: int, maxDeleteSize: int,
                       dryRun: bool, server: Server)
    requires chunkSize >= 1 && WithinHistory(|h|, keepHistorySize, maxDeleteSize)
    ensures var run := PlannedRun(h, keepHistorySize, chunkSize, maxDeleteSize, dryRun, server);
      FlattenRev(run.batches) == h[|h| - MakePlan(|h|, keepHistorySize, chunkSize, maxDeleteSize).deletions..]
    ensures var run := PlannedRun(h, keepHistorySize, chunkSize, maxDeleteSize, dryRun, server);
      forall k :: 0 <= k < |run.batches| ==> 0 < |run.batches[k]| <= chunkSize
  {
    var p := MakePlan(|h|, keepHistorySize, chunkSize, maxDeleteSize);
    var run := PlannedRun(h, keepHistorySize, chunkSize, maxDeleteSize, dryRun, server);
    PlannedRunExecutes(h, keepHistorySize, chunkSize, maxDeleteSize, dryRun, server);
    ExecutesAllBatches(h, p, dryRun, server, run);
    BatchesAreOldest(h, keepHistorySize, chunkSize, maxDeleteSize);
    BatchSizes(h, keepHistorySize, chunkSize, maxDeleteSize);
  }

  /** Once the chunk loop is over, the running offset minus the remainder is
      where the remainder window starts. */
  lemma RemainderFollowsChunks(p: Plan)
    requires p.remains > 0
    ensures Windows(p)[NumChunks(p)] == RemainderWindow(p)
    ensures RemainderWindow(p).offset == p.total - p.chunkSize * NumChunks(p) - p.remains
  {
    if NumChunks(p) > 0 {
      assert p.chunkSize * (NumChunks(p) - 1 + 1) == p.chunkSize * NumChunks(p);
    }
  }

  /** The chunk loop of `purge_history`, `for i in range(chunk_num)`: it
      returns the running `offset` and the run after the last full chunk. */
  method DeleteChunks(history: History, plan: Plan, dryRun: bool, server: Server)
    returns (offset: int, run: PurgeRun)
    requires plan.total == |history| && WindowsInside(Windows(plan), |history|)
    requires plan.chunkSize < 1 ==> plan.chunkNum <= 0
    ensures offset == plan.total - plan.chunkSize * NumChunks(plan)
    ensures run == RunOf(history, Windows(plan), dryRun, server, NumChunks(plan))
  {
    var total := plan.total;
    var chunkSize := plan.chunkSize;
    var ws := Windows(plan);
    offset := total;
    run := PurgeRun(0, [], [], []);
    var i := 0;
    while i < plan.chunkNum
      invariant 0 <= i <= NumChunks(plan)
      invariant offset == total - chunkSize * i
      invariant run == RunOf(history, ws, dryRun, server, i)
    {
      var next := i + 1;
      offset := total - chunkSize * next;
      assert ws[i] == ChunkWindow(plan, i);
      var ids := GetExecutionIds(history, offset, chunkSize);
      assert ids == Batch(history, ws[i]);
      ids := TakeLast(ids, chunkSize);
      assert Record(run, ids, DeleteExecutions(server, ids, dryRun)) == RunOf(history, ws, dryRun, server, next);
      run := Record(run, ids, DeleteExecutions(server, ids, dryRun));
      i := next;
    }
  }

  /** The remainder step of `purge_history`, `if remains > 0`: one more
      query just below the running `offset`, then the last delete call. */
  method DeleteRemainder(history: History, plan: Plan, dryRun: bool, server: Server, offset: int, run: PurgeRun)
    returns (run': PurgeRun)
    requires plan.total == |history| && WindowsInside(Windows(plan), |history|)
    requires plan.chunkSize < 1 ==> plan.chunkNum <= 0 && plan.remains <= 0
    requires offset == plan.total - plan.chunkSize * NumChunks(plan)
    requires run == RunOf(history, Windows(plan), dryRun, server, NumChunks(plan))
    ensures run' == RunOf(history, Windows(plan), dryRun, server, |Windows(plan)|)
  {
    var ws := Windows(plan);
    var i := NumChunks(plan);
    run' := run;
    if plan.remains > 0 {
      RemainderFollowsChunks(plan);
      var start := offset - plan.remains;
      var ids := GetExecutionIds(history, start, plan.remains);
      assert ids == Batch(history, ws[i]);
      assert Record(run, ids, DeleteExecutions(server, ids, dryRun)) == RunOf(history, ws, dryRun, server, i + 1);
      run' := Record(run, ids, DeleteExecutions(server, ids, dryRun));
    }
  }

  /** `purge_history`. The chunk loop and the remainder step follow the
      script, including its running `offset`; the contract ties the result
      to the plan. */
  method PurgeHistory(history: History, keepHistorySize: int, chunkSize: int, maxDeleteSize: int,
                      dryRun: bool, server: Server)
    returns (r: Result<PurgeRun, PurgeError>)
    requires chunkSize <= 0 || WithinHistory(|history|, keepHistorySize, maxDeleteSize)
    ensures r.Failure? <==> chunkSize == 0
    ensures r.Success? ==>
      r.value == PlannedRun(history, keepHistorySize, chunkSize, maxDeleteSize, dryRun, server)
    ensures r.Success? && chunkSize >= 1 ==>
      FlattenRev(r.value.batches)
      == history[|history| - MakePlan(|history|, keepHistorySize, chunkSize, maxDeleteSize).deletions..]
    ensures r.Success? && chunkSize >= 1 ==>
      forall k :: 0 <= k < |r.value.batches| ==> 0 < |r.value.batches[k]| <= chunkSize
    ensures r.Success? && dryRun ==> r.value.deleted == 0 && r.value.posted == []
  {
    var total := HistoryTotal(history);
    if chunkSize == 0 {
      return Failure(ZeroChunkSize);
    }
    var plan := MakePlan(total, keepHistorySize, chunkSize, maxDeleteSize);
    PlanWindowsInside(history, keepHistorySize, chunkSize, maxDeleteSize);
    if chunkSize < 0 {
      NegativeChunkSizePlansNothing(total, keepHistorySize, chunkSize, maxDeleteSize);
    }
    var offset, run := DeleteChunks(history, plan, dryRun, server);
    run := DeleteRemainder(history, plan, dryRun, server, offset, run);
    assert run == PlannedRun(history, keepHistorySize, chunkSize, maxDeleteSize, dryRun, server);
    r := Success(run);
    if chunkSize >= 1 {
      RunReadsOldest(history, keepHistorySize, chunkSize, maxDeleteSize, dryRun, server);
    }
  }

  /** When the server never confirms more than it was sent, a purge reports
      at most the planned number of deletions, and so never more than the
      cap. */
  lemma PurgeReportsAtMostPlanned(h: History, keepHistorySize: int, chunkSize: int, maxDeleteSize: int,
                                  dryRun: bool, server: Server)
    requires chunkSize >= 1 && WithinHistory(|h|, keepHistorySize, maxDeleteSize)
    requires forall ids :: 0 <= server(ids).successful <= |ids|
    ensures var run := PlannedRun(h, keepHistorySize, chunkSize, maxDeleteSize, dryRun, server);
      0 <= run.deleted <= MakePlan(|h|, keepHistorySize, chunkSize, maxDeleteSize).deletions
    ensures maxDeleteSize >= 0 ==>
      PlannedRun(h, keepHistorySize, chunkSize, maxDeleteSize, dryRun, server).deleted <= maxDeleteSize
  {
    var run := PlannedRun(h, keepHistorySize, chunkSize, maxDeleteSize, dryRun, server);
    PlannedRunExecutes(h, keepHistorySize, chunkSize, maxDeleteSize, dryRun, server);
    RunReadsOldest(h, keepHistorySize, chunkSize, maxDeleteSize, dryRun, server);
    SumOfPartialBatches(run.batches, run.counts);
  }

  /** When every delete call succeeds in full, a real purge reports exactly
      the planned number of deletions. */
  lemma PurgeFullSuccess(h: History, keepHistorySize: int, chunkSize: int, maxDeleteSize: int, server: Server)
    requires chunkSize >= 1 && WithinHistory(|h|, keepHistorySize, maxDeleteSize)
    requires forall ids :: server(ids).successful == |ids|
    ensures PlannedRun(h, keepHistorySize, chunkSize, maxDeleteSize, false, server).deleted
         == MakePlan(|h|, keepHistorySize, chunkSize, maxDeleteSize).deletions
  {
    var run := PlannedRun(h, keepHistorySize, chunkSize, maxDeleteSize, false, server);
    PlannedRunExecutes(h, keepHistorySize, chunkSize, maxDeleteSize, false, server);
    RunReadsOldest(h, keepHistorySize, chunkSize, maxDeleteSize, false, server);
    SumOfFullBatches(run.batches, run.counts);
  }

  /** A partial failure never stops the purge: whatever the server answers,
      the same batches are read and handed to deletion, and the same requests
      are sent; only the reported count depends on the answers. */
  lemma ServerRepliesDoNotChangeBatches(h: History, keepHistorySize: int, chunkSize: int, maxDeleteSize: int,
                                        dryRun: bool, server1: Server, server2: Server)
    requires chunkSize != 0 && (chunkSize < 0 || WithinHistory(|h|, keepHistorySize, maxDeleteSize))
    ensures var run1 := PlannedRun(h, keepHistorySize, chunkSize, maxDeleteSize, dryRun, server1);
      var run2 := PlannedRun(h, keepHistorySize, chunkSize, maxDeleteSize, dryRun, server2);
      run1.batches == run2.batches && run1.posted == run2.posted
      && |run1.counts| == |run2.counts| == |Windows(MakePlan(|h|, keepHistorySize, chunkSize, maxDeleteSize))|
  {
    var p := MakePlan(|h|, keepHistorySize, chunkSize, maxDeleteSize);
    PlannedRunExecutes(h, keepHistorySize, chunkSize, maxDeleteSize, dryRun, server1);
    PlannedRunExecutes(h, keepHistorySize, chunkSize, maxDeleteSize, dryRun, server2);
    ExecutesAllBatches(h, p, dryRun, server1, PlannedRun(h, keepHistorySize, chunkSize, maxDeleteSize, dryRun, server1));
    ExecutesAllBatches(h, p, dryRun, server2, PlannedRun(h, keepHistorySize, chunkSize, maxDeleteSize, dryRun, server2));
  }
}

=== FILE: pyops.dfy ===
/** The few Python built-ins the purge script relies on, with Python's semantics
    written out over unbounded integers. */
module PyOps {

  /** Python's `min(a, b)` on integers. */
  function Min(a: int, b: int): (m: int)
    ensures m <= a && m <= b
    ensures m == a || m == b
  {
    if a <= b then a else b
  }

  /** Python's `divmod(a, b)`: the quotient is rounded toward negative infinity
      and the remainder takes the sign of the divisor. A zero divisor raises
      `ZeroDivisionError` in Python, hence the precondition. */
  function DivMod(a: int, b: int): (qr: (int, int))
    requires b != 0
    ensures qr.0 * b + qr.1 == a
    ensures b > 0 ==> 0 <= qr.1 < b
    ensures b < 0 ==> b < qr.1 <= 0
  {
    if b > 0 then (a / b, a % b)
    else if a % b == 0 then (a / b, 0)
    else (a / b - 1, a % b + b)
  }

  /** Python's definition of `divmod`: it is the only pair (q, r) with
      `q * b + r == a` whose remainder lies between zero and the divisor. */
  lemma DivModUnique(a: int, b: int, q: int, r: int)
    requires b != 0
    requires q * b + r == a
    requires b > 0 ==> 0 <= r < b
    requires b < 0 ==> b < r <= 0
    ensures DivMod(a, b) == (q, r)
  {
    var (q', r') := DivMod(a, b);
    assert (q - q') * b == r' - r by {
      assert q * b - q' * b == (q - q') * b;
    }
    MulWithinDivisor(q - q', b);
  }

  /** The only multiple of `b` strictly closer to zero than `b` is zero. */
  lemma MulWithinDivisor(n: int, b: int)
    requires b > 0 ==> -b < n * b < b
    requires b < 0 ==> b < n * b < -b
    requires b != 0
    ensures n == 0
  {
    if n >= 1 {
      MulMonotone(n, b);
    } else if n <= -1 {
      assert (-n) * b == -(n * b);
      MulMonotone(-n, b);
    }
  }

  /** A positive multiple of `b` is at least `b` away from zero. */
  lemma MulMonotone(n: int, b: int)
    requires n >= 1
    ensures b >= 0 ==> n * b >= b
    ensures b <= 0 ==> n * b <= b
  {
    assert n * b == (n - 1) * b + b;
    if b >= 0 {
      assert (n - 1) * b >= 0;
    } else {
      assert (n - 1) * b <= 0;
    }
  }

  /** Python's `xs[-k:]` for a positive `k`: the last `k` elements of `xs`, or
      all of `xs` when it is shorter than `k`. */
  function TakeLast<T>(xs: seq<T>, k: int): (r: seq<T>)
    requires k >= 1
    ensures |r| == Min(|xs|, k)
    ensures forall j :: 0 <= j < |r| ==> r[j] == xs[|xs| - |r| + j]
    ensures |xs| <= k ==> r == xs
  {
    if |xs| <= k then xs else xs[|xs| - k..]
  }
}

=== FILE: wrappers.dfy ===
/** The success/failure datatype used for operations that can raise in the script. */
module Wrappers {

  datatype Result<+R, +E> = Success(value: R) | Failure(error: E)
}
